=== FILE: README.md ===
# Face-encoding registry: a Dafny model of `SimpleFaceRecognizer`

This project models the registry and matching logic of `SimpleFaceRecognizer`
(`app/simple_face_recognizer.py`). It proves properties of that model. The
recognizer keeps five pieces of state:

- the `person_encoding` index: an ordered sequence of `(name, file)` rows;
- the encodings directory: a finite map from `.npy` file name to embedding;
- the cached list of known names;
- the cached list of known encodings, aligned with the names by position;
- the `UploadedPhotosStatus` flag, `Processed` or `ToProcess`.

Every operation is a pure function from a state to the next state. Together
with the state it returns either its result or the exception it raised,
because a Python object keeps every assignment made before an exception
escapes.

Files and modules:

- `types.dfy`, module `FaceTypes`: embeddings, rows, decoded photos, the flag,
  the errors, and the constants `"Unknown"`, `0.6` and `".npy"`.
- `store.dfy`, module `EncodingStore`: saving a fresh file (the clock-polling
  loop), reading a file back, and replaying the index into the two lists.
- `matching.dfy`, module `Matching`: the first-occurrence `argmin` and the
  "nearest neighbour, vetoed by the tolerance test" labelling rule.
- `recognizer.dfy`, module `Recognizer`: construction, `add_person`,
  `_load_images`, `load_new_images`, `detect_known_faces`, `known_faces`.
- `properties.dfy`, module `RecognizerProperties`: the invariant every
  reachable state keeps (`Good`), the stale-until-refreshed behaviour,
  idempotent refresh, batches of uploads, reachability over any sequence of
  calls, and a worked scenario.

The library primitives become inputs:

- A photo is an `Image`. It is either `Undecodable` or `Decoded(faces)`. The
  faces are the embeddings of the detected faces, in detection order.
- `count_people` is `|faces|`, and `face_encodings(img)[0]` is `faces[0]`.
  This assumes the face library is deterministic, so its two detection passes
  over one photo agree.
- `face_distance` is a parameter of type `(Embedding, Embedding) -> real`.
- `compare_faces` is a parameter of type `(Embedding, Embedding, real) -> bool`.
  It receives the tolerance `0.6`. The model does not say whether the test
  uses `<` or `<=`.
- The wall clock read by `_save_encoding` is a sequence of formatted
  timestamps. The loop takes the first timestamp whose `<stamp>.npy` does not
  exist yet. If every reading in the sequence names an existing file, the
  result is `NoFreeFileName` and nothing changes. That stands for a call still
  spinning in the loop.

The model follows the code in three places where the documented intent says
otherwise or says nothing:

- A photo with no face does not return `false`. `add_person` computes the
  first face's encoding (line 143, which indexes `[0]` at line 23) before it
  counts faces (line 145). So a photo with no face raises `NoFaceFound`, and
  only two or more faces return `false`. The docstring at line 138 also
  promises `false` for "not one person".
- A failed rebuild is not rolled back. `_load_images` clears both lists before
  replaying the index (lines 126-127). A missing file therefore leaves the
  rows read so far in the cache, raises `MissingBlob`, and leaves the flag
  `ToProcess`. From any `Good` state the rebuild cannot fail, because every
  index row names an existing file.
- `detect_known_faces` does not check for an empty known set. `argmin` over
  no distances raises (line 181), so a photo with at least one face and an
  empty cache yields `EmptyKnownSet`. A photo without faces yields `[]`
  whatever the cache holds. The HTTP caller checks for a non-empty cache
  first (`app/main.py:44`).

## Model

| member | source | states |
|---|---|---|
| EncodingStore.FirstFreeReading | app/simple_face_recognizer.py:101-104 | the polling loop stops at the first clock reading whose file does not exist; every earlier reading names an existing file; it finds none exactly when every reading is taken |
| EncodingStore.SaveEncoding | app/simple_face_recognizer.py:95-109 | the file written did not exist before and is named after a clock reading; the directory gains exactly that one file, holding the embedding; every earlier file keeps its contents; it fails only when every reading is taken |
| EncodingStore.ReadEncoding | app/simple_face_recognizer.py:111-118 | a read succeeds exactly when the file exists and then returns the stored embedding; otherwise it raises `MissingBlob` naming that file |
| EncodingStore.SaveThenRead | app/simple_face_recognizer.py:101-118 | round trip: reading back the file just saved yields the saved embedding; every file that existed before still reads the same |
| EncodingStore.ReplayIndex | app/simple_face_recognizer.py:126-134 | the replayed lists are aligned; position i holds row i's name and row i's stored embedding; the replay stops exactly at the first row whose file is missing and reports that file |
| EncodingStore.ReplayFailsIffInconsistent | app/simple_face_recognizer.py:129-134 | the replay raises if and only if some index row names a missing file |
| EncodingStore.ReplayOfConsistentIndex | app/simple_face_recognizer.py:126-134 | on a consistent index the cache equals the names column and the referenced embeddings, in row order |
| Matching.ArgMin | app/simple_face_recognizer.py:181 | `argmin` returns an index of the minimum distance, and no earlier index holds that minimum (ties go to the first) |
| Matching.FirstMinUnique | app/simple_face_recognizer.py:181 | only one index is the first minimum, so `argmin` is fully determined |
| Matching.Label | app/simple_face_recognizer.py:174-184 | a face gets the name at the first nearest known encoding if `compare_faces` accepts that same encoding, and "Unknown" otherwise |
| Matching.LabelAll | app/simple_face_recognizer.py:173-186 | one label per detected face, in detection order; it raises exactly when a face is detected and the known set is empty |
| Matching.LabelIsKnownOrUnknown | app/simple_face_recognizer.py:177-184 | every label is "Unknown" or the name of a known encoding that passed the tolerance test |
| Matching.ToleranceOnlyVetoes | app/simple_face_recognizer.py:176-183 | if the nearest encoding fails the tolerance test, the face is "Unknown" even when a farther encoding passes it; the threshold never picks a different index |
| Matching.SingleKnownFace | app/simple_face_recognizer.py:176-183 | with one known person, a face gets that name exactly when the tolerance test accepts it, and "Unknown" exactly when it rejects it |
| Recognizer.LoadImages | app/simple_face_recognizer.py:120-134 | the rebuild leaves the index, directory and flag alone; on success the cache equals the replayed index; on a missing file it raises and keeps only the rows read before it |
| Recognizer.Init | app/simple_face_recognizer.py:56-68 | construction succeeds exactly when every index row names an existing file; the new recognizer is `Processed` and its cache equals the replayed index |
| Recognizer.AddPerson | app/simple_face_recognizer.py:136-151 | returns true only for a decodable photo with exactly one face (when a free file name is found), false exactly for two or more faces, and raises for an undecodable photo or one without faces; anything but true leaves the state unchanged; true appends exactly one row (name, new file), adds exactly one new file holding the face's embedding, sets `ToProcess`, and leaves the cache alone |
| Recognizer.LoadNewImages | app/simple_face_recognizer.py:153-160 | when `Processed` nothing changes; when `ToProcess` the cache is rebuilt from the index; success always leaves `Processed`; a failed rebuild keeps `ToProcess`; the store is never touched |
| Recognizer.DetectKnownFaces | app/simple_face_recognizer.py:162-186 | one label per detected face, in order, from the cache as it stands; an undecodable photo raises `DecodeError`; a face against an empty cache raises `EmptyKnownSet` |
| RecognizerProperties.ProcessedCacheIsFresh | app/simple_face_recognizer.py:153-160 | in a reachable state a `Processed` cache equals the index's names and referenced embeddings, in row order |
| RecognizerProperties.InitIsGood | app/simple_face_recognizer.py:56-68 | a constructed recognizer satisfies the invariant and is `Processed` |
| RecognizerProperties.AddPersonIsGood | app/simple_face_recognizer.py:136-151 | `add_person` preserves the invariant: every row names an existing file, and the cache mirrors a prefix of the index, aligned |
| RecognizerProperties.OrphanFileKeepsGood | app/simple_face_recognizer.py:146-147 | a saved file that no index row names, as a failed insert after `np.save` leaves behind, keeps the invariant and does not change what the index replays to |
| RecognizerProperties.LoadNewImagesIsGood | app/simple_face_recognizer.py:153-160 | in a reachable state `load_new_images` never raises, leaves `Processed`, and preserves the invariant |
| RecognizerProperties.LoadNewImagesIdempotent | app/simple_face_recognizer.py:158-160 | two consecutive calls of `load_new_images` equal one call |
| RecognizerProperties.StaleUntilRefreshed | app/simple_face_recognizer.py:146-160 | after a successful upload the flag is `ToProcess` and `known_faces` is unchanged; after `load_new_images` it is the old list followed by the new name, and the encodings are the old ones followed by the photo's face embedding |
| RecognizerProperties.AddEachAppendsAccepted | app/simple_face_recognizer.py:136-151 | a batch of uploads only appends to the index, one row per accepted upload with its name, in upload order; the cache is untouched, and the state is unchanged when nothing is accepted |
| RecognizerProperties.AcceptedUploadAppendsFace | app/simple_face_recognizer.py:143-148 | an accepted upload appends the photo's face embedding to the embeddings the index refers to, leaving the earlier ones as they were |
| RecognizerProperties.AddEachAppendsFaces | app/simple_face_recognizer.py:136-151 | a batch of uploads appends, to the embeddings the index refers to, each accepted photo's face embedding, in upload order, and keeps the invariant |
| RecognizerProperties.BatchThenRefresh | app/simple_face_recognizer.py:120-160 | uploads followed by `load_new_images` leave the known names equal to the earlier names followed by the accepted names, in order, and the known encodings equal to the earlier encodings followed by the accepted photos' face embeddings, in the same order |
| RecognizerProperties.KnownFacesIsCachedPrefix | app/simple_face_recognizer.py:188-193 | `known_faces` returns the cached names without refreshing: in a reachable state they are the names of the first rows of the index, possibly fewer than the index holds while `ToProcess`, and all of them once `Processed` |
| RecognizerProperties.RunIsGood | app/simple_face_recognizer.py:120-160 | any sequence of uploads and refreshes preserves the invariant, so every reachable cache has aligned names and encodings |
| RecognizerProperties.ReachableQueryIsDefined | app/main.py:42-50 | after any calls from a successful construction, a query raises exactly for an undecodable photo or for a face against an empty cache, which the caller's non-empty check excludes |
| RecognizerProperties.AliceScenario | app/simple_face_recognizer.py:136-193 | from an empty store a one-face photo of alice is accepted; after a refresh the known names are ["alice"]; her face is labelled "alice" and a rejected face "Unknown"; a two-face photo returns false and changes nothing |

## Left out

- Image decoding and colour conversion (`get_rgb_img`), face detection and embedding, `face_distance` and `compare_faces` are foreign library calls. They are inputs of the model (an `Image`, a distance function, a tolerance predicate), and no float arithmetic is modelled.
- sqlite access (`_execute_query`, `_get_query_result`) is reduced to an append-only sequence read back in insertion order. The SQL text is not modelled. At line 147 the name is placed between single quotes without escaping. A double quote is harmless, but a name containing a single quote can do three things. It can make the insert fail after the file was saved. It can store a different name (`O''Neil` stores `O'Neil`). It can append extra rows, including rows that name files which do not exist. A name containing a NUL character makes sqlite3 refuse the statement, which also raises after the file was saved. The model assumes names contain no single quote and no NUL character, so each accepted upload appends exactly the one row `(name, new file)`.
- Recognizer.AddPerson: the promise of exactly one appended row carrying `name` holds for the source only for names without a single quote or NUL character (see the sqlite line above). Storage write failures are not modelled either: `open`/`np.save` at lines 106-107 or the insert at line 147 can fail (a full disk, a missing permission, a rejected statement), and the source then raises after the file may already exist. So "anything but `true` leaves the state unchanged" does not hold for the source in that case, and the model has no storage error. The invariant still holds then, because a file that no row names does not break it (`RecognizerProperties.OrphanFileKeepsGood`).
- Recognizer.Init: that construction succeeds from a store built by earlier uploads holds for the source only if no earlier name contained a single quote, because an injected row naming a missing file makes the replay raise.
- RecognizerProperties.RunIsGood: the invariant (every row names an existing file) holds for the source only for names without a single quote. An injected row can name a missing file, after which `load_new_images` and every later construction raise.
- numpy file I/O is reduced to a finite map. `check_folder` and `os.mkdir` are left out because directory creation has no effect on the map.
- Paths are not modelled. The map is keyed by file names relative to the encodings directory. `os.path.join(dir, f)` names the entry `f` of the encodings directory, and `os.path.basename(os.path.join(dir, f)) == f` because a timestamp-derived `f` contains no path separator; so the row's basename is the map key.
- The clock's progress is an input. Whether the polling loop at lines 101-104 ever exits depends on the wall clock, which the model cannot see.
- `app/main.py` (FastAPI routing, JSON config loading, catch-all exception handlers) is transport plumbing. Its only relevant fact is the non-empty guard before a query, noted above.
- `testing/test_main.py` needs a live HTTP server and a photo dataset.
- Concurrency is not modelled: the code has no locks, and every operation is modelled as atomic.
- The unused `_frame_resizing` field is left out.
- Recognizer.DetectKnownFaces: requires the two cached lists to have equal length. With unequal lengths the source reads `names[best]` only when `matches[best]` holds (lines 182-183), and `matches` has one entry per encoding; so it raises `IndexError` only when there are fewer names than encodings and the nearest index lies past the end of the names and passes the tolerance test. With more names than encodings it never raises. That case analysis is not modelled. Every reachable state has equal lengths (`RecognizerProperties.RunIsGood`), so the model does not include that error.

=== FILE: matching.dfy ===
/**
 The matching rule of `detect_known_faces`: for each detected face, take the
 known encoding at the smallest distance (the first one on ties, as `argmin`
 does) and keep its name only when `compare_faces` accepted that same
 encoding; otherwise label the face "Unknown".

 The distance (`face_distance`) and the tolerance test (`compare_faces`) are
 library primitives and enter as parameters.
 */
module Matching {
  import opened FaceTypes

  /** `face_distance`, one known encoding against one face. */
  type Distance = (Embedding, Embedding) -> real

  /** `compare_faces`, one known encoding against one face under a tolerance. */
  type Comparison = (Embedding, Embedding, real) -> bool

  /** The distances from one face to every known encoding, in cache order. */
  function Distances(known: seq<Embedding>, face: Embedding, distance: Distance): (ds: seq<real>)
    ensures |ds| == |known|
  {
    seq(|known|, i requires 0 <= i < |known| => distance(known[i], face))
  }

  /** `i` is where the minimum of `ds` first occurs. */
  predicate IsFirstMin(ds: seq<real>, i: int)
  {
    && 0 <= i < |ds|
    && (forall j :: 0 <= j < |ds| ==> ds[i] <= ds[j])
    && (forall j :: 0 <= j < i ==> ds[i] < ds[j])
  }

  /** `np.argmin`: a left-to-right scan that moves only on a strictly smaller value. */
  function ArgMin(ds: seq<real>): (i: nat)
    requires |ds| > 0
    ensures IsFirstMin(ds, i)
    decreases |ds|
  {
    if |ds| == 1 then 0
    else
      var k := ArgMin(ds[..|ds| - 1]);
      if ds[|ds| - 1] < ds[k] then |ds| - 1 else k
  }

  /** There is only one first minimum, so `ArgMin` is determined by its contract. */
  lemma FirstMinUnique(ds: seq<real>, i: int, j: int)
    requires IsFirstMin(ds, i) && IsFirstMin(ds, j)
    ensures i == j
  {
    assert ds[i] <= ds[j] && ds[j] <= ds[i];
  }

  /** The label of one detected face: the name at the first nearest known
      encoding when that encoding is within tolerance, "Unknown" otherwise. */
  function Label(names: seq<string>, known: seq<Embedding>, face: Embedding,
                 distance: Distance, compare: Comparison): (faceName: string)
    requires |names| == |known| > 0
    ensures forall i :: IsFirstMin(Distances(known, face, distance), i) ==>
              faceName == (if compare(known[i], face, Tolerance) then names[i] else Unknown)
  {
    var ds := Distances(known, face, distance);
    var best := ArgMin(ds);
    forall i | IsFirstMin(ds, i)
      ensures i == best
    {
      FirstMinUnique(ds, i, best);
    }
    if compare(known[best], face, Tolerance) then names[best] else Unknown
  }

  /** The loop of `detect_known_faces` over the detected faces. `argmin` of an
      empty distance list raises, so a photo with a face and an empty known set
      is an error; a photo without faces yields no labels whatever the cache. */
  function LabelAll(names: seq<string>, known: seq<Embedding>, faces: seq<Embedding>,
                    distance: Distance, compare: Comparison): (r: Result<seq<string>>)
    requires |names| == |known|
    ensures r.Err? <==> |faces| > 0 && |known| == 0
    ensures r.Err? ==> r.error == EmptyKnownSet
    ensures r.Ok? ==> |r.value| == |faces|
    ensures r.Ok? ==> forall k :: 0 <= k < |faces| ==>
              r.value[k] == Label(names, known, faces[k], distance, compare)
  {
    if |faces| > 0 && |known| == 0 then Err(EmptyKnownSet)
    else Ok(seq(|faces|, k requires 0 <= k < |faces| => Label(names, known, faces[k], distance, compare)))
  }

  /** Every label is "Unknown" or the name of some known encoding that passed
      the tolerance test. */
  lemma LabelIsKnownOrUnknown(names: seq<string>, known: seq<Embedding>, face: Embedding,
                              distance: Distance, compare: Comparison)
    requires |names| == |known| > 0
    ensures var faceName := Label(names, known, face, distance, compare);
      faceName == Unknown || exists i :: 0 <= i < |names| && compare(known[i], face, Tolerance) && faceName == names[i]
  {
  }

  /** The tolerance only vetoes the nearest encoding; it never selects another
      one. If the first nearest encoding fails the test, the face is "Unknown"
      even when some farther encoding passes it. */
  lemma ToleranceOnlyVetoes(names: seq<string>, known: seq<Embedding>, face: Embedding,
                            distance: Distance, compare: Comparison, nearest: nat)
    requires |names| == |known| > 0
    requires IsFirstMin(Distances(known, face, distance), nearest)
    ensures !compare(known[nearest], face, Tolerance) ==> Label(names, known, face, distance, compare) == Unknown
    ensures compare(known[nearest], face, Tolerance) ==> Label(names, known, face, distance, compare) == names[nearest]
  {
  }

  /** With one known person, a face is labelled with that name exactly when
      the tolerance test accepts it. */
  lemma SingleKnownFace(name: string, k: Embedding, face: Embedding,
                        distance: Distance, compare: Comparison)
    requires name != Unknown
    ensures Label([name], [k], face, distance, compare) == name <==> compare(k, face, Tolerance)
    ensures Label([name], [k], face, distance, compare) == Unknown <==> !compare(k, face, Tolerance)
  {
  }
}

=== FILE: properties.dfy ===
/**
 Properties of the recognizer that relate several operations: the invariant
 every reachable state keeps, the stale-cache behaviour of ingestion followed
 by a refresh, idempotence of the refresh, batches of uploads, reachability
 over any sequence of calls, and a worked scenario.
 */
module RecognizerProperties {
  import opened FaceTypes
  import opened EncodingStore
  import opened Matching
  import opened Recognizer

  /** What every reachable recognizer satisfies: every index row names an
      existing file; the cache mirrors a prefix of the index, names and
      encodings aligned; and a processed cache mirrors the whole index. */
  predicate Good(s: State)
  {
    && Consistent(s.index, s.blobs)
    && MirrorsPrefix(s.names, s.encodings, s.index, s.blobs)
    && (s.status == Processed ==> |s.names| == |s.index|)
  }

  /** A processed cache is the replay of the current index: it may be trusted. */
  lemma ProcessedCacheIsFresh(s: State)
    requires Good(s) && s.status == Processed
    ensures s.names == NamesOf(s.index)
    ensures s.encodings == EncodingsOf(s.index, s.blobs)
  {
  }

  /** A successful construction yields a good, processed recognizer. */
  lemma InitIsGood(index: seq<Row>, blobs: Blobs)
    requires Init(index, blobs).Ok?
    ensures Good(Init(index, blobs).value)
    ensures Init(index, blobs).value.status == Processed
  {
  }

  /** `add_person` keeps the invariant, whatever its outcome. */
  lemma AddPersonIsGood(s: State, name: string, image: Image, clock: seq<string>)
    requires Good(s)
    ensures Good(AddPerson(s, name, image, clock).state)
  {
  }

  /** A file that no row names (left behind when `add_person` raises after
      `np.save`) keeps the invariant, and the index still replays to the
      same embeddings. */
  lemma OrphanFileKeepsGood(s: State, file: FileName, e: Embedding)
    requires Good(s) && file !in s.blobs
    ensures Good(s.(blobs := s.blobs[file := e]))
    ensures EncodingsOf(s.index, s.blobs[file := e]) == EncodingsOf(s.index, s.blobs)
  {
  }

  /** `load_new_images` keeps the invariant and, on a good recognizer, never
      raises and always leaves the cache processed. */
  lemma LoadNewImagesIsGood(s: State)
    requires Good(s)
    ensures LoadNewImages(s).result.Ok?
    ensures LoadNewImages(s).state.status == Processed
    ensures Good(LoadNewImages(s).state)
  {
  }

  /** `load_new_images` twice in a row is `load_new_images` once: the second
      call finds the flag processed and changes nothing. */
  lemma LoadNewImagesIdempotent(s: State)
    requires LoadNewImages(s).result.Ok?
    ensures LoadNewImages(LoadNewImages(s).state) == LoadNewImages(s)
  {
  }

  /** The cache is not refreshed by ingestion: after a successful
      `add_person` the known names are those from before, and only after
      `load_new_images` do they include the new person, at the end. */
  lemma StaleUntilRefreshed(s: State, name: string, image: Image, clock: seq<string>)
    requires Good(s) && s.status == Processed
    requires AddPerson(s, name, image, clock).result == Ok(true)
    ensures var added := AddPerson(s, name, image, clock).state;
      && added.status == ToProcess
      && KnownFaces(added) == KnownFaces(s)
      && KnownFaces(LoadNewImages(added).state) == KnownFaces(s) + [name]
      && LoadNewImages(added).state.encodings == s.encodings + [image.faces[0]]
  {
    var added := AddPerson(s, name, image, clock).state;
    ProcessedCacheIsFresh(s);
    AddPersonIsGood(s, name, image, clock);
    LoadNewImagesIsGood(added);
  }

  /** `known_faces` returns the cache as it stands: the names of the first
      rows of the index, which may lag the index while the flag is
      `ToProcess`, and all of them once it is `Processed`. */
  lemma KnownFacesIsCachedPrefix(s: State)
    requires Good(s)
    ensures |KnownFaces(s)| <= |s.index|
    ensures KnownFaces(s) == NamesOf(s.index)[..|KnownFaces(s)|]
    ensures s.status == Processed ==> KnownFaces(s) == NamesOf(s.index)
  {
  }

  /** One upload request: the name, the photo, and the clock readings
      `_save_encoding` would see. */
  datatype Request = Request(name: string, image: Image, clock: seq<string>)

  /** The state after a batch of uploads, with the result of each. */
  datatype Batch = Batch(state: State, results: seq<Result<bool>>)

  /** `add_person` applied to each request in turn. */
  function AddEach(s: State, requests: seq<Request>): (b: Batch)
    ensures |b.results| == |requests|
    decreases |requests|
  {
    if |requests| == 0 then Batch(s, [])
    else
      var first := AddPerson(s, requests[0].name, requests[0].image, requests[0].clock);
      var rest := AddEach(first.state, requests[1..]);
      Batch(rest.state, [first.result] + rest.results)
  }

  /** The names of the requests that were accepted (returned true), in order. */
  function AcceptedNames(requests: seq<Request>, results: seq<Result<bool>>): (names: seq<string>)
    requires |results| == |requests|
    decreases |requests|
  {
    if |requests| == 0 then []
    else (if results[0] == Ok(true) then [requests[0].name] else []) + AcceptedNames(requests[1..], results[1..])
  }

  /** The embeddings of the accepted requests' faces, in order. An accepted
      request always carries a decoded photo with exactly one face. */
  function AcceptedFaces(requests: seq<Request>, results: seq<Result<bool>>): (faces: seq<Embedding>)
    requires |results| == |requests|
    decreases |requests|
  {
    if |requests| == 0 then []
    else
      var first := requests[0];
      (if results[0] == Ok(true) && first.image.Decoded? && |first.image.faces| > 0
       then [first.image.faces[0]] else [])
      + AcceptedFaces(requests[1..], results[1..])
  }

  /** A batch of uploads only appends to the index, exactly one row per
      accepted request, carrying that request's name, in request order; the
      cache lists are untouched and the invariant holds throughout. */
  lemma {:induction false} AddEachAppendsAccepted(s: State, requests: seq<Request>)
    requires Good(s)
    ensures var b := AddEach(s, requests);
      && Good(b.state)
      && |s.index| <= |b.state.index|
      && b.state.index[..|s.index|] == s.index
      && NamesOf(b.state.index) == NamesOf(s.index) + AcceptedNames(requests, b.results)
      && b.state.names == s.names && b.state.encodings == s.encodings
      && (AcceptedNames(requests, b.results) == [] ==> b.state == s)
      && (AcceptedNames(requests, b.results) != [] ==> b.state.status == ToProcess)
    decreases |requests|
  {
    if |requests| > 0 {
      var first := AddPerson(s, requests[0].name, requests[0].image, requests[0].clock);
      AddPersonIsGood(s, requests[0].name, requests[0].image, requests[0].clock);
      AddEachAppendsAccepted(first.state, requests[1..]);
      var b := AddEach(s, requests);
      var rest := AddEach(first.state, requests[1..]);
      assert b.results == [first.result] + rest.results;
      assert b.results[1..] == rest.results;
      if first.result == Ok(true) {
        var row := first.state.index[|s.index|];
        assert first.state.index == s.index + [row];
        NamesOfAppend(s.index, row);
        assert row.name == requests[0].name;
        assert rest.state.index[..|first.state.index|] == first.state.index;
        assert b.state.index[..|s.index|] == first.state.index[..|s.index|];
        assert NamesOf(b.state.index) == NamesOf(first.state.index) + AcceptedNames(requests[1..], rest.results);
        assert AcceptedNames(requests, b.results) == [requests[0].name] + AcceptedNames(requests[1..], rest.results);
      } else {
        assert first.state == s;
        assert AcceptedNames(requests, b.results) == AcceptedNames(requests[1..], rest.results);
      }
    }
  }

  /** An accepted upload appends the photo's face embedding to the embeddings
      the index refers to. */
  lemma AcceptedUploadAppendsFace(s: State, name: string, image: Image, clock: seq<string>)
    requires Good(s)
    requires AddPerson(s, name, image, clock).result == Ok(true)
    ensures var t := AddPerson(s, name, image, clock).state;
      && Consistent(t.index, t.blobs)
      && EncodingsOf(t.index, t.blobs) == EncodingsOf(s.index, s.blobs) + [image.faces[0]]
  {
    var t := AddPerson(s, name, image, clock).state;
    EncodingsOfExtend(s.index, s.blobs, t.blobs);
    assert t.index == s.index + [t.index[|s.index|]];
  }

  /** A batch of uploads appends, to the embeddings the index refers to, the
      face embedding of each accepted request, in request order. */
  lemma {:induction false} AddEachAppendsFaces(s: State, requests: seq<Request>)
    requires Good(s)
    ensures var b := AddEach(s, requests);
      && Good(b.state)
      && EncodingsOf(b.state.index, b.state.blobs) == EncodingsOf(s.index, s.blobs) + AcceptedFaces(requests, b.results)
    decreases |requests|
  {
    if |requests| > 0 {
      var q := requests[0];
      var first := AddPerson(s, q.name, q.image, q.clock);
      AddPersonIsGood(s, q.name, q.image, q.clock);
      AddEachAppendsFaces(first.state, requests[1..]);
      var b := AddEach(s, requests);
      var rest := AddEach(first.state, requests[1..]);
      assert b.results == [first.result] + rest.results;
      assert b.results[1..] == rest.results;
      if first.result == Ok(true) {
        AcceptedUploadAppendsFace(s, q.name, q.image, q.clock);
        assert AcceptedFaces(requests, b.results) == [q.image.faces[0]] + AcceptedFaces(requests[1..], rest.results);
      } else {
        assert first.state == s;
        assert AcceptedFaces(requests, b.results) == AcceptedFaces(requests[1..], rest.results);
      }
    }
  }

  /** Cache rebuild fidelity: a batch of uploads followed by
      `load_new_images`, starting from a processed recognizer, leaves the
      known names equal to the earlier names followed by the accepted names,
      in upload order, and the known encodings equal to the earlier ones
      followed by the accepted photos' face embeddings, in the same order. */
  lemma BatchThenRefresh(s: State, requests: seq<Request>)
    requires Good(s) && s.status == Processed
    ensures var b := AddEach(s, requests);
      var refreshed := LoadNewImages(b.state).state;
      && KnownFaces(refreshed) == KnownFaces(s) + AcceptedNames(requests, b.results)
      && refreshed.encodings == s.encodings + AcceptedFaces(requests, b.results)
  {
    var b := AddEach(s, requests);
    AddEachAppendsAccepted(s, requests);
    AddEachAppendsFaces(s, requests);
    ProcessedCacheIsFresh(s);
    LoadNewImagesIsGood(b.state);
    ProcessedCacheIsFresh(LoadNewImages(b.state).state);
  }

  /** A call that can change the recognizer. `detect_known_faces` and
      `known_faces` only read it, so they are not calls here. */
  datatype Call = Upload(request: Request) | Refresh

  /** The recognizer after a sequence of calls; a call that raises leaves
      the state it reached, as the object does. */
  function Run(s: State, calls: seq<Call>): (t: State)
    decreases |calls|
  {
    if |calls| == 0 then s
    else
      var next := match calls[0]
        case Upload(q) => AddPerson(s, q.name, q.image, q.clock).state
        case Refresh => LoadNewImages(s).state;
      Run(next, calls[1..])
  }

  /** Every state reachable from a successful construction keeps the
      invariant; in particular its cached names and encodings are aligned,
      which is what `detect_known_faces` relies on. */
  lemma {:induction false} RunIsGood(s: State, calls: seq<Call>)
    requires Good(s)
    ensures Good(Run(s, calls))
    ensures |Run(s, calls).names| == |Run(s, calls).encodings|
    decreases |calls|
  {
    if |calls| > 0 {
      match calls[0]
      case Upload(q) =>
        AddPersonIsGood(s, q.name, q.image, q.clock);
        RunIsGood(AddPerson(s, q.name, q.image, q.clock).state, calls[1..]);
      case Refresh =>
        LoadNewImagesIsGood(s);
        RunIsGood(LoadNewImages(s).state, calls[1..]);
    }
  }

  /** Reachable states are exactly what matching needs: after any calls from a
      successful construction, a query is answered from aligned lists and
      raises only for an undecodable photo or a face against an empty cache. */
  lemma ReachableQueryIsDefined(index: seq<Row>, blobs: Blobs, calls: seq<Call>,
                                image: Image, distance: Distance, compare: Comparison)
    requires Init(index, blobs).Ok?
    ensures var t := Run(Init(index, blobs).value, calls);
      && |t.names| == |t.encodings|
      && (DetectKnownFaces(t, image, distance, compare).Err? <==>
            image.Undecodable? || (|image.faces| > 0 && KnownFaces(t) == []))
  {
    InitIsGood(index, blobs);
    RunIsGood(Init(index, blobs).value, calls);
  }

  /** The worked example: from an empty store, alice's one-face photo is
      accepted; after a refresh the known names are ["alice"]; the same face
      is labelled "alice" and a face the tolerance test rejects is
      "Unknown"; a two-face photo is refused and changes nothing. */
  lemma AliceScenario(alice: Embedding, stranger: Embedding, other: Embedding,
                      distance: Distance, compare: Comparison)
    requires compare(alice, alice, Tolerance)
    requires !compare(alice, stranger, Tolerance)
    ensures var s0 := Init([], map[]).value;
      var a := AddPerson(s0, "alice", Decoded([alice]), ["2024-01-01T00_00_00"]);
      var s1 := LoadNewImages(a.state).state;
      var g := AddPerson(s1, "group", Decoded([alice, other]), ["2024-01-01T00_00_01"]);
      && a.result == Ok(true)
      && KnownFaces(s1) == ["alice"]
      && DetectKnownFaces(s1, Decoded([alice]), distance, compare) == Ok(["alice"])
      && DetectKnownFaces(s1, Decoded([stranger]), distance, compare) == Ok([Unknown])
      && g.result == Ok(false)
      && g.state == s1
      && KnownFaces(g.state) == ["alice"]
  {
    var s0 := Init([], map[]).value;
    var a := AddPerson(s0, "alice", Decoded([alice]), ["2024-01-01T00_00_00"]);
    assert FileNameFor(["2024-01-01T00_00_00"][0]) !in s0.blobs;
    var s1 := LoadNewImages(a.state).state;
    assert a.result == Ok(true);
    assert a.state.index == [Row("alice", FileNameFor("2024-01-01T00_00_00"))];
    assert s1.names == NamesOf(a.state.index) == ["alice"];
    assert s1.encodings == EncodingsOf(a.state.index, a.state.blobs) == [alice];
    assert IsFirstMin(Distances(s1.encodings, alice, distance), 0);
    assert IsFirstMin(Distances(s1.encodings, stranger, distance), 0);
    var same := DetectKnownFaces(s1, Decoded([alice]), distance, compare);
    assert same.Ok? && |same.value| == 1;
    assert same.value[0] == "alice";
    assert same.value == ["alice"];
    var unrelated := DetectKnownFaces(s1, Decoded([stranger]), distance, compare);
    assert unrelated.Ok? && |unrelated.value| == 1;
    assert unrelated.value[0] == Unknown;
    assert unrelated.value == [Unknown];
  }
}

=== FILE: recognizer.dfy ===
/**
 `SimpleFaceRecognizer` as an immutable state record and pure transitions.
 An operation that raises still returns the state it leaves behind, because
 the object keeps every assignment made before the exception.
 */
module Recognizer {
  import opened FaceTypes
  import opened EncodingStore
  import opened Matching

  /** The recognizer's state: the `person_encoding` table, the encodings
      directory, the two cached lists and the `UploadedPhotosStatus` flag. */
  datatype State = State(
    index: seq<Row>,
    blobs: Blobs,
    names: seq<string>,
    encodings: seq<Embedding>,
    status: Status)

  /** The state after an operation, with its return value or the error it raised. */
  datatype Step<T> = Step(state: State, result: Result<T>)

  /** `_load_images`: clear both lists, then replay the index row by row. A
      missing file raises, leaving the rows read so far in the lists; the flag
      and the store are never touched. */
  function LoadImages(s: State): (r: Step<()>)
    ensures r.state.index == s.index && r.state.blobs == s.blobs && r.state.status == s.status
    ensures MirrorsPrefix(r.state.names, r.state.encodings, s.index, s.blobs)
    ensures r.result.Ok? <==> Consistent(s.index, s.blobs)
    ensures r.result.Ok? ==> r.state.names == NamesOf(s.index) && r.state.encodings == EncodingsOf(s.index, s.blobs)
    ensures r.result.Err? ==>
              && |r.state.names| < |s.index|
              && s.index[|r.state.names|].file !in s.blobs
              && r.result.error == MissingBlob(s.index[|r.state.names|].file)
  {
    var replay := ReplayIndex(s.index, s.blobs);
    ReplayFailsIffInconsistent(s.index, s.blobs);
    if replay.missing.Some? then
      Step(s.(names := replay.names, encodings := replay.encodings), Err(MissingBlob(replay.missing.value)))
    else
      ReplayOfConsistentIndex(s.index, s.blobs);
      Step(s.(names := replay.names, encodings := replay.encodings), Ok(()))
  }

  /** `__init__`: open the store, build the cache from the index, then mark it
      processed. A missing file makes the constructor raise. */
  function Init(index: seq<Row>, blobs: Blobs): (r: Result<State>)
    ensures r.Ok? <==> Consistent(index, blobs)
    ensures r.Err? ==> r.error.MissingBlob? && r.error.file !in blobs
    ensures r.Ok? ==>
              && r.value.index == index && r.value.blobs == blobs
              && r.value.status == Processed
              && r.value.names == NamesOf(index)
              && r.value.encodings == EncodingsOf(index, blobs)
  {
    var loaded := LoadImages(State(index, blobs, [], [], Processed));
    if loaded.result.Err? then Err(loaded.result.error)
    else Ok(loaded.state.(status := Processed))
  }

  /** `add_person`. The embedding of the first face is taken before the faces
      are counted, so a photo without faces raises; a photo with two or more
      faces returns false. Only a single-face photo is stored: a fresh file,
      one more index row, and the cache marked stale. */
  function AddPerson(s: State, name: string, image: Image, clock: seq<string>): (r: Step<bool>)
    ensures r.result == Ok(true) <==>
              image.Decoded? && |image.faces| == 1
              && exists k :: 0 <= k < |clock| && FileNameFor(clock[k]) !in s.blobs
    ensures r.result == Ok(false) <==> image.Decoded? && |image.faces| >= 2
    ensures r.result.Err? ==>
              || (image.Undecodable? && r.result.error == DecodeError)
              || (image.Decoded? && |image.faces| == 0 && r.result.error == NoFaceFound)
              || (image.Decoded? && |image.faces| == 1 && r.result.error == NoFreeFileName)
    ensures r.result != Ok(true) ==> r.state == s
    ensures r.result == Ok(true) ==>
              && |r.state.index| == |s.index| + 1
              && r.state.index[..|s.index|] == s.index
              && r.state.index[|s.index|].name == name
              && r.state.index[|s.index|].file !in s.blobs
              && r.state.blobs.Keys == s.blobs.Keys + {r.state.index[|s.index|].file}
              && r.state.blobs[r.state.index[|s.index|].file] == image.faces[0]
              && (forall f :: f in s.blobs ==> r.state.blobs[f] == s.blobs[f])
              && r.state.names == s.names && r.state.encodings == s.encodings
              && r.state.status == ToProcess
  {
    match image
    case Undecodable => Step(s, Err(DecodeError))
    case Decoded(faces) =>
      if |faces| == 0 then Step(s, Err(NoFaceFound))
      else if |faces| == 1 then
        match SaveEncoding(s.blobs, clock, faces[0])
        case Err(e) => Step(s, Err(e))
        case Ok(saved) =>
          Step(s.(blobs := saved.blobs, index := s.index + [Row(name, saved.file)], status := ToProcess), Ok(true))
      else Step(s, Ok(false))
  }

  /** `load_new_images`: rebuild the cache only when it is stale, then mark it
      processed. If the rebuild raises, the flag is not reset. */
  function LoadNewImages(s: State): (r: Step<()>)
    ensures r.state.index == s.index && r.state.blobs == s.blobs
    ensures s.status == Processed ==> r == Step(s, Ok(()))
    ensures s.status == ToProcess ==>
              && (r.result.Ok? <==> Consistent(s.index, s.blobs))
              && MirrorsPrefix(r.state.names, r.state.encodings, s.index, s.blobs)
    ensures r.result.Ok? ==> r.state.status == Processed
    ensures r.result.Err? ==> r.state.status == ToProcess
    ensures s.status == ToProcess && r.result.Ok? ==>
              r.state.names == NamesOf(s.index) && r.state.encodings == EncodingsOf(s.index, s.blobs)
  {
    if s.status == ToProcess then
      var loaded := LoadImages(s);
      if loaded.result.Err? then loaded
      else Step(loaded.state.(status := Processed), Ok(()))
    else Step(s.(status := Processed), Ok(()))
  }

  /** `detect_known_faces`: label every detected face, in detection order,
      against the cache as it stands (it is not refreshed first). */
  function DetectKnownFaces(s: State, image: Image, distance: Distance, compare: Comparison): (r: Result<seq<string>>)
    requires |s.names| == |s.encodings|
    ensures image.Undecodable? ==> r == Err(DecodeError)
    ensures image.Decoded? ==>
              (r.Err? <==> |image.faces| > 0 && |s.encodings| == 0)
    ensures image.Decoded? && r.Err? ==> r.error == EmptyKnownSet
    ensures r.Ok? ==> image.Decoded? && |r.value| == |image.faces|
    ensures r.Ok? ==> forall k, i :: 0 <= k < |image.faces| && IsFirstMin(Distances(s.encodings, image.faces[k], distance), i) ==>
              r.value[k] == (if compare(s.encodings[i], image.faces[k], Tolerance) then s.names[i] else Unknown)
  {
    match image
    case Undecodable => Err(DecodeError)
    case Decoded(faces) => LabelAll(s.names, s.encodings, faces, distance, compare)
  }

  /** `known_faces`: the cached names, stale or not. */
  function KnownFaces(s: State): (names: seq<string>)
  {
    s.names
  }
}

=== FILE: store.dfy ===
/**
 The durable side of the recognizer: the directory of `.npy` embedding files
 (a finite map from file name to embedding) and the ordered `person_encoding`
 index. This module models saving a fresh file, reading one back, and
 replaying the index into the aligned name/encoding lists.
 */
module EncodingStore {
  import opened FaceTypes

  /** The encodings directory: file name to stored embedding. */
  type Blobs = map<FileName, Embedding>

  /** The file name built from one clock reading (`%Y-%m-%dT%H_%M_%S` + ".npy"). */
  function FileNameFor(stamp: string): FileName
  {
    stamp + Extension
  }

  /** The busy-wait loop of `_save_encoding`: the position of the first clock
      reading whose file does not exist yet, or None when every reading in the
      window names an existing file. */
  function FirstFreeReading(blobs: Blobs, clock: seq<string>): (r: Option<nat>)
    ensures r.Some? ==> r.value < |clock| && FileNameFor(clock[r.value]) !in blobs
    ensures r.Some? ==> forall j :: 0 <= j < r.value ==> FileNameFor(clock[j]) in blobs
    ensures r.None? <==> forall j :: 0 <= j < |clock| ==> FileNameFor(clock[j]) in blobs
    decreases |clock|
  {
    if |clock| == 0 then None
    else if FileNameFor(clock[0]) !in blobs then Some(0)
    else
      match FirstFreeReading(blobs, clock[1..])
      case None => None
      case Some(k) => Some(k + 1)
  }

  /** The directory after a save, and the name of the file written. */
  datatype Saved = Saved(blobs: Blobs, file: FileName)

  /** `_save_encoding`: write the embedding to the first file name, derived from
      the clock, that does not exist yet. */
  function SaveEncoding(blobs: Blobs, clock: seq<string>, e: Embedding): (r: Result<Saved>)
    ensures r.Ok? ==> r.value.file !in blobs
    ensures r.Ok? ==> r.value.blobs.Keys == blobs.Keys + {r.value.file}
    ensures r.Ok? ==> r.value.blobs[r.value.file] == e
    ensures r.Ok? ==> forall f :: f in blobs ==> r.value.blobs[f] == blobs[f]
    ensures r.Ok? ==> exists k :: 0 <= k < |clock| && r.value.file == FileNameFor(clock[k])
    ensures r.Err? <==> forall k :: 0 <= k < |clock| ==> FileNameFor(clock[k]) in blobs
    ensures r.Err? ==> r.error == NoFreeFileName
  {
    match FirstFreeReading(blobs, clock)
    case None => Err(NoFreeFileName)
    case Some(k) =>
      var file := FileNameFor(clock[k]);
      Ok(Saved(blobs[file := e], file))
  }

  /** `_read_encoding`: load the embedding stored under a file name. */
  function ReadEncoding(blobs: Blobs, file: FileName): (r: Result<Embedding>)
    ensures r.Ok? <==> file in blobs
    ensures r.Ok? ==> r.value == blobs[file]
    ensures r.Err? ==> r.error == MissingBlob(file)
  {
    if file in blobs then Ok(blobs[file]) else Err(MissingBlob(file))
  }

  /** Every row of the index names a file that exists. */
  predicate Consistent(rows: seq<Row>, blobs: Blobs)
  {
    forall i :: 0 <= i < |rows| ==> rows[i].file in blobs
  }

  /** The names column of the index, in row order. */
  function NamesOf(rows: seq<Row>): (names: seq<string>)
  {
    seq(|rows|, i requires 0 <= i < |rows| => rows[i].name)
  }

  /** The embeddings the index rows refer to, in row order. */
  function EncodingsOf(rows: seq<Row>, blobs: Blobs): (encodings: seq<Embedding>)
    requires Consistent(rows, blobs)
  {
    seq(|rows|, i requires 0 <= i < |rows| => blobs[rows[i].file])
  }

  /** The lists `names`/`encodings` hold, position by position, the first
      `|names|` rows of the index and their stored embeddings. */
  predicate MirrorsPrefix(names: seq<string>, encodings: seq<Embedding>, rows: seq<Row>, blobs: Blobs)
  {
    && |names| == |encodings| <= |rows|
    && forall i :: 0 <= i < |names| ==>
         && rows[i].file in blobs
         && names[i] == rows[i].name
         && encodings[i] == blobs[rows[i].file]
  }

  /** What the loop of `_load_images` leaves behind: the lists it appended to,
      and the file whose read failed, if one did. */
  datatype Replay = Replay(names: seq<string>, encodings: seq<Embedding>, missing: Option<FileName>)

  /** The loop of `_load_images` over the rows of the index, in order: read the
      row's file, append the embedding, then append the name. A missing file
      raises, leaving the rows read so far in the lists. */
  function ReplayIndex(rows: seq<Row>, blobs: Blobs): (r: Replay)
    ensures MirrorsPrefix(r.names, r.encodings, rows, blobs)
    ensures r.missing.None? <==> |r.names| == |rows|
    ensures r.missing.Some? ==> rows[|r.names|].file !in blobs && r.missing.value == rows[|r.names|].file
    decreases |rows|
  {
    if |rows| == 0 then Replay([], [], None)
    else
      match ReadEncoding(blobs, rows[0].file)
      case Err(_) => Replay([], [], Some(rows[0].file))
      case Ok(e) =>
        var rest := ReplayIndex(rows[1..], blobs);
        Replay([rows[0].name] + rest.names, [e] + rest.encodings, rest.missing)
  }

  /** Reading back a freshly saved file yields the saved embedding, and every
      file that existed before reads back as it did. */
  lemma SaveThenRead(blobs: Blobs, clock: seq<string>, e: Embedding, f: FileName)
    requires SaveEncoding(blobs, clock, e).Ok?
    ensures var saved := SaveEncoding(blobs, clock, e).value;
      && ReadEncoding(saved.blobs, saved.file) == Ok(e)
      && (f in blobs ==> ReadEncoding(saved.blobs, f) == ReadEncoding(blobs, f))
  {
  }

  /** The replay stops exactly at the first row whose file is missing: it
      fails if and only if the index is not consistent with the directory. */
  lemma ReplayFailsIffInconsistent(rows: seq<Row>, blobs: Blobs)
    ensures ReplayIndex(rows, blobs).missing.None? <==> Consistent(rows, blobs)
  {
  }

  /** On a consistent index the replay yields exactly the names column and the
      referenced embeddings, in row order. */
  lemma ReplayOfConsistentIndex(rows: seq<Row>, blobs: Blobs)
    requires Consistent(rows, blobs)
    ensures ReplayIndex(rows, blobs) == Replay(NamesOf(rows), EncodingsOf(rows, blobs), None)
  {
  }

  /** Adding files to the directory does not change what the existing rows
      refer to. */
  lemma EncodingsOfExtend(rows: seq<Row>, blobs: Blobs, more: Blobs)
    requires Consistent(rows, blobs)
    requires blobs.Keys <= more.Keys
    requires forall f :: f in blobs ==> more[f] == blobs[f]
    ensures Consistent(rows, more)
    ensures EncodingsOf(rows, more) == EncodingsOf(rows, blobs)
  {
  }

  /** Appending a row to the index appends its name to the names column. */
  lemma NamesOfAppend(rows: seq<Row>, row: Row)
    ensures NamesOf(rows + [row]) == NamesOf(rows) + [row.name]
  {
  }
}

=== FILE: types.dfy ===
/**
 The vocabulary shared by the encoding store, the matcher and the recognizer:
 embeddings, index rows, decoded photos, the staleness flag and the errors the
 recognizer's operations can raise.
 */
module FaceTypes {

  /** A face embedding as produced by the face-encoding library. The model never
      inspects the components: it only stores, copies and compares embeddings. */
  datatype Embedding = Embedding(vector: seq<real>)

  /** The name of one `.npy` file inside the encodings directory. */
  type FileName = string

  /** One row of the `person_encoding` table: a person's name and the file
      holding that person's embedding. */
  datatype Row = Row(name: string, file: FileName)

  /** What the image pipeline makes of an uploaded photo: either the bytes do not
      decode, or they decode to a picture whose detected faces, in detection
      order, have the given embeddings. */
  datatype Image = Undecodable | Decoded(faces: seq<Embedding>)

  /** `UploadedPhotosStatus`: `ToProcess` means the in-memory cache may lag the index. */
  datatype Status = Processed | ToProcess

  /** The exceptions the recognizer lets escape.
      - DecodeError: the photo bytes are not an image;
      - NoFaceFound: `face_encodings(...)[0]` on a photo without faces;
      - NoFreeFileName: every clock reading seen so far names an existing file
        (the busy-wait loop has not exited yet);
      - MissingBlob: an index row names a file that is not in the directory;
      - EmptyKnownSet: `argmin` over the distances to an empty known set. */
  datatype Error =
    | DecodeError
    | NoFaceFound
    | NoFreeFileName
    | MissingBlob(file: FileName)
    | EmptyKnownSet

  datatype Option<T> = None | Some(value: T)

  datatype Result<T> = Ok(value: T) | Err(error: Error)

  /** The label given to a face that is not recognised. */
  const Unknown: string := "Unknown"

  /** The tolerance handed to `compare_faces`. */
  const Tolerance: real := 0.6

  /** The suffix of every embedding file. */
  const Extension: string := ".npy"
}
